=== FILE: README.md ===
# A New Leaf: a Dafny model of the focus timer, plant growth and focus statistics

A New Leaf is an Android focus timer. Pressing the leaf button starts a
five-minute countdown. The clock shows `m:ss`. At the renderings "3:50",
"2:00" and "0:30" the plant on the home screen grows one stage, up to three.
When the clock shows the end time, the in-memory totals grow by five minutes
and one session. They are broadcast to a receiver that stores them, stamped
with today's date, in the "FocusData" preference file. The statistics screen
shows the stored totals when the stored date is today. The quote screen
fetches a quote for the first five views of a process and otherwise shows
the stored one. A foreground service plays the chosen song.

The model is written as pure functions over immutable values:

- `base.dfy`: `Option` (Java null), `Result` with the three crashes the model
  keeps (null pointer, number format, index out of bounds), and Java's
  32-bit `int` with wrap-around (`Add32`).
- `text.dfy`: decimal rendering (`String.valueOf`) and parsing
  (`Integer.parseInt`), `%02d`, character replacement and removal, Gson's
  JSON string quoting, and ASCII upper-casing.
- One module per core class:
  - `FocusViewModel`
  - `AccessSharedPref`
  - `PlantReceiver`
  - `StatsFragment`
  - `QuoteFragment`
  - `AudioService`
  - `MainActivity`, which ties the others together as a state machine over
    user, timer and lifecycle events.

A callback that throws ends in `Err` rather than being excluded by a
precondition. The one exception is an empty flower-image array, listed under
"## Left out".

Notable behaviours of the code, which the model keeps:

- The view model's growth counter is never reset. Only "0" is published, on
  `onFinish` and on pause, stop and resume. A later session starts from the
  count the previous one reached.
- Every tick whose text is a milestone grows the plant. Two ticks that render
  the same milestone grow it twice.
- The in-memory totals are static fields that are not keyed by day. A
  completion on a new day stores yesterday's total plus five. The
  statistics screen's own comment, "if it's a different day, stats are
  reset" (fragments/StatsFragment.java:44), holds only for the display of
  a stale store. The next completion writes the carried totals under
  today's date.
- Resuming with nothing stored throws `NumberFormatException`, because
  `parseInt("")` fails. Pausing before any session was started throws
  `NullPointerException`, because the timer field is still null.
- Completion is triggered when the clock text equals `time_end`, not by
  `onFinish`. So a pause, which sets the clock to `time_start`, also runs the
  completion accounting whenever the two resource strings are equal.

## Model

| member | source | states |
|---|---|---|
| Base.Add32 | app/src/main/java/com/finalproject/MainActivity.java:198-199 | Java `int` addition: the exact sum when it fits in 32 bits; 2^32 is subtracted from a sum above the range and added to a sum below it |
| Text.ParseInt | app/src/main/java/com/finalproject/MainActivity.java:129-130 | `Integer.parseInt`: empty text, a bare sign, a non-digit after the optional sign and out-of-range digits all fail; digits that fit in an `int` parse to their value, after a leading plus too, and a leading minus parses any magnitude up to 2147483648 to its negation |
| Text.ParseIntOfDecimal | app/src/main/java/com/finalproject/MainActivity.java:129-130 | `Integer.parseInt` of `String.valueOf(i)` gives back `i` for every `int`, so stored totals read back unchanged |
| Text.DigitsValueOfDecimal | app/src/main/java/com/finalproject/AccessSharedPref.java:54-55 | the decimal text written for a natural number consists of digits that denote that number |
| Text.ClockFormatInjective | app/src/main/java/com/finalproject/FocusViewModel.java:138 | two `%d:%02d` renderings with seconds below 100 are equal only when minutes and seconds are equal |
| Text.RemoveCharAppend | app/src/main/java/com/finalproject/AccessSharedPref.java:116-128 | removing a character from a concatenation is the concatenation of the removals |
| Text.StripJsonString | app/src/main/java/com/finalproject/AccessSharedPref.java:126-128 | removing the quotes from the JSON form of a date without quotes or backslashes gives the date back |
| FocusViewModel.Minutes | app/src/main/java/com/finalproject/FocusViewModel.java:76-79 | the minutes are the whole minutes in `millis`, rounded down |
| FocusViewModel.Seconds | app/src/main/java/com/finalproject/FocusViewModel.java:87-90 | the seconds field lies in 0..59, and minutes*60 + seconds is the whole seconds in `millis` |
| FocusViewModel.ClockText | app/src/main/java/com/finalproject/FocusViewModel.java:135-138 | the rendering is the decimal minutes, a colon, then exactly two digits: the tens and units of the seconds field |
| FocusViewModel.Grow | app/src/main/java/com/finalproject/FocusViewModel.java:145-148 | one growth step raises the counter by one, publishes a count and the sprout name "plant" followed by that same count, and leaves the clock and timer alone |
| FocusViewModel.GrowPublishesCount | app/src/main/java/com/finalproject/MainActivity.java:159-160 | the count a growth step publishes parses back, in the activity's observer, to the new counter value |
| FocusViewModel.CheckGrowth | app/src/main/java/com/finalproject/FocusViewModel.java:141-151 | the milestone loop changes nothing when the text is no milestone; otherwise it never lowers the counter, keeps it within 0..3, and leaves the clock and timer alone |
| FocusViewModel.ClockTextExamples | app/src/main/java/com/finalproject/FocusViewModel.java:135-138 | 230 000 ms renders as "3:50" and 30 000 ms as "0:30" |
| FocusViewModel.ClockTextMatchesMilestone | app/src/main/java/com/finalproject/FocusViewModel.java:135-143 | a tick's text equals one of "3:50", "2:00", "0:30" if and only if its whole seconds are 230, 120 or 30 |
| FocusViewModel.CheckGrowthAtMostOnce | app/src/main/java/com/finalproject/FocusViewModel.java:141-151 | the loop over pairwise distinct milestone strings grows the plant exactly once if the text is among them and the cap is not reached, and otherwise not at all |
| FocusViewModel.Tick | app/src/main/java/com/finalproject/FocusViewModel.java:133-152 | a tick publishes its clock text; the counter rises by one exactly at a milestone second below the cap, and then the new count and "plant<count>" are published; nothing else changes |
| FocusViewModel.OnFinish | app/src/main/java/com/finalproject/FocusViewModel.java:155-158 | the end of the countdown cancels the timer and publishes "0", but the private counter keeps its value |
| FocusViewModel.StartCountDownTimer | app/src/main/java/com/finalproject/FocusViewModel.java:130-131 | starting installs a running timer and leaves the growth counter and every published value as they were |
| FocusViewModel.CancelTimer | app/src/main/java/com/finalproject/FocusViewModel.java:66-68 | cancelling the timer fails exactly when none was ever created, and otherwise changes only the timer |
| FocusViewModel.UpdateClockTime | app/src/main/java/com/finalproject/FocusViewModel.java:97-101 | a null clock text is ignored; any other replaces the published clock time and nothing else |
| FocusViewModel.UpdatePlantCount | app/src/main/java/com/finalproject/FocusViewModel.java:108-112 | a null count is ignored; any other replaces the published plant count and nothing else |
| FocusViewModel.UpdateSproutTime | app/src/main/java/com/finalproject/FocusViewModel.java:119-123 | a null sprout name is ignored; any other replaces the published sprout time and nothing else |
| FocusViewModel.RunTicksGrowth | app/src/main/java/com/finalproject/FocusViewModel.java:141-151 | after any tick sequence, the counter is min(3, start + number of milestone ticks): it never falls and it never passes three |
| FocusViewModel.CountdownMilestones | app/src/main/java/com/finalproject/FocusViewModel.java:131-143 | one tick per second from `hi` down to `lo` contains each milestone second in that range exactly once |
| FocusViewModel.SessionGrowth | app/src/main/java/com/finalproject/FocusViewModel.java:141-151 | a fresh session ticking once per second from at least 3:50 grows once per milestone passed, reaching stage three at "0:30" |
| FocusViewModel.RepeatedMilestoneGrowsTwice | app/src/main/java/com/finalproject/FocusViewModel.java:142-149 | two ticks in the same whole second render the same text, and if that text is any of the three milestones, both ticks grow the plant, since matched strings are not remembered |
| FocusViewModel.FullSessionGrowth | app/src/main/java/com/finalproject/FocusViewModel.java:20-24 | a five-minute session ticking once per second (the timer's interval), from the first second below five minutes down to one second, ends at stage three |
| FocusViewModel.LaterSessionInherits | app/src/main/java/com/finalproject/FocusViewModel.java:23 | the counter lives across sessions: after a session that reached stage three, no later session grows |
| AccessSharedPref.RetrieveData | app/src/main/java/com/finalproject/AccessSharedPref.java:80-82 | a stored key reads as its value and a key never written reads as "" |
| AccessSharedPref.GetStoredDate | app/src/main/java/com/finalproject/AccessSharedPref.java:89-91 | the stored date key, or "" when never written |
| AccessSharedPref.GetFocusTime | app/src/main/java/com/finalproject/AccessSharedPref.java:98-100 | the stored minutes key, or "" when never written |
| AccessSharedPref.GetFocusSessions | app/src/main/java/com/finalproject/AccessSharedPref.java:107-109 | the stored sessions key, or "" when never written |
| AccessSharedPref.GetDate | app/src/main/java/com/finalproject/AccessSharedPref.java:39-42 | today's date is stored in its JSON form, wrapped in double quotes |
| AccessSharedPref.StoreFocusStats | app/src/main/java/com/finalproject/AccessSharedPref.java:51-57 | writes the three stat keys; the totals parse back to the numbers given, the stored date matches today, and every other key reads as before |
| AccessSharedPref.StoreQuote | app/src/main/java/com/finalproject/AccessSharedPref.java:67-72 | writes the quote and author keys so they read back as given, and every other key reads as before |
| AccessSharedPref.FormatStoredDate | app/src/main/java/com/finalproject/AccessSharedPref.java:116-119 | the stripped stored date contains no backslash and no double quote; stored text without either comes back unchanged, and a date stored in Gson's form of plain text comes back as that date |
| AccessSharedPref.FormatCurrentDate | app/src/main/java/com/finalproject/AccessSharedPref.java:126-128 | the stripped current date contains no double quote, and is today's date itself when that date is plain |
| AccessSharedPref.CompareDates | app/src/main/java/com/finalproject/AccessSharedPref.java:136-140 | for a plain today, the dates match exactly when the stripped stored date equals today's text |
| AccessSharedPref.StoredDateMatchesDay | app/src/main/java/com/finalproject/AccessSharedPref.java:136-140 | a store stamped on `day` compares equal to `today` if and only if the two day strings are equal |
| AccessSharedPref.NoStoredDateNeverMatches | app/src/main/java/com/finalproject/AccessSharedPref.java:89-91 | with no date stored, the comparison is false for every non-empty date |
| PlantReceiver.GetInt | app/src/main/java/com/finalproject/PlantReceiver.java:33-34 | a bundle's `getInt` returns the stored value, or 0 for a missing key |
| PlantReceiver.IsFocusUpdate | app/src/main/java/com/finalproject/PlantReceiver.java:22-31 | the receiver acts only on an intent whose action is the custom broadcast and whose extras are non-null and hold "update_focus" |
| PlantReceiver.OnReceive | app/src/main/java/com/finalproject/PlantReceiver.java:21-38 | a focus-update broadcast stores its totals, stamped with today, and leaves other keys alone; any other intent changes nothing |
| PlantReceiver.ReceiveOverwrites | app/src/main/java/com/finalproject/PlantReceiver.java:31-35 | the stat keys after a focus update depend only on the broadcast, not on what was stored before |
| PlantReceiver.OnReceiveIdempotent | app/src/main/java/com/finalproject/PlantReceiver.java:21-38 | receiving the same broadcast twice leaves the store as receiving it once |
| PlantReceiver.DeliverToMany | app/src/main/java/com/finalproject/MainActivity.java:337-343 | with n >= 1 receivers registered, one broadcast leaves the store as a single receiver would |
| StatsFragment.OnCreateView | app/src/main/java/com/finalproject/fragments/StatsFragment.java:28-51 | shows the stored totals verbatim when the stored date is today, and "0" and "0" otherwise |
| StatsFragment.ViewDependsOnlyOnStats | app/src/main/java/com/finalproject/fragments/StatsFragment.java:36-49 | two stores that agree on the three stat keys give the same screen |
| StatsFragment.StaleDayShowsZero | app/src/main/java/com/finalproject/fragments/StatsFragment.java:39-49 | totals stamped on another day show as zeros, whatever their values |
| StatsFragment.StoredTodayShowsTotals | app/src/main/java/com/finalproject/fragments/StatsFragment.java:39-43 | totals stored today show as their decimal texts |
| QuoteFragment.SetQuoteText | app/src/main/java/com/finalproject/fragments/QuoteFragment.java:107-112 | the quote is shown between double quotes and the author after a tilde, and both can be read back from the texts |
| QuoteFragment.OnCreateView | app/src/main/java/com/finalproject/fragments/QuoteFragment.java:47-67 | each view increments the counter as an `int`; a request is made exactly when the new count is at most 5, and otherwise the stored quote and author are shown |
| QuoteFragment.SelectResponseObject | app/src/main/java/com/finalproject/fragments/QuoteFragment.java:85-88 | the response loop ends holding the last object of the array, or null for an empty array |
| QuoteFragment.OnResponse | app/src/main/java/com/finalproject/fragments/QuoteFragment.java:84-94 | a non-empty response stores and shows the last object's quote and author; an empty one changes nothing; other keys are kept |
| QuoteFragment.RequestBudget | app/src/main/java/com/finalproject/fragments/QuoteFragment.java:29-30 | from any counter value, negative ones included, that does not wrap, k views advance the counter by k, and of them max(0, min(k, 5 - start)) issue a request |
| QuoteFragment.RequestBudgetFromLaunch | app/src/main/java/com/finalproject/fragments/QuoteFragment.java:60 | of the first k views in a process, exactly min(k, 5) fetch a quote |
| AudioService.OnCreate | app/src/main/java/com/finalproject/AudioService.java:35-43 | a player exists afterwards, an existing one is kept, and nothing but the player slot changes |
| AudioService.FormatSongName | app/src/main/java/com/finalproject/AudioService.java:92-98 | underscores become spaces and the first character is upper-cased; a null name stays null; an empty name throws |
| AudioService.FormatSongNameIdempotent | app/src/main/java/com/finalproject/AudioService.java:93-98 | formatting an already formatted name changes nothing |
| AudioService.StartMusic | app/src/main/java/com/finalproject/AudioService.java:119-126 | any previous player is released, and a looping, playing player for the song takes the slot |
| AudioService.StopMusic | app/src/main/java/com/finalproject/AudioService.java:131-138 | an existing player is released, the service leaves the foreground and its notification is removed, the song name is kept; with no player nothing changes |
| AudioService.StopMusicIdempotent | app/src/main/java/com/finalproject/AudioService.java:131-138 | stopping twice is the same as stopping once |
| AudioService.OnDestroy | app/src/main/java/com/finalproject/AudioService.java:144-148 | destruction leaves no player |
| AudioService.OnStartCommand | app/src/main/java/com/finalproject/AudioService.java:57-68 | a null intent changes nothing; otherwise any previous player is released, the notification shows the formatted name and the song starts, failing exactly for an empty name; START_NOT_STICKY is always returned |
| MainActivity.Launch | app/src/main/java/com/finalproject/MainActivity.java:68-93 | a fresh process has exactly one receiver, zero totals, the initial view model with no timer, an unset state and the given store, and satisfies the activity invariant |
| MainActivity.UpdateHomeFragment | app/src/main/java/com/finalproject/MainActivity.java:302-306 | an index past the last image becomes 0, so the index shown always names an image |
| MainActivity.OnClockChanged | app/src/main/java/com/finalproject/MainActivity.java:191-208 | the clock shows the new text; at `time_end` the totals grow by 5 and 1 as Java ints and reach the store stamped with today; keys other than the three statistics are untouched; any other text changes nothing else |
| MainActivity.PressPlant | app/src/main/java/com/finalproject/MainActivity.java:239-246 | a session starts only when the clock shows `time_start` or `time_end`, and without resetting the growth counter; only the view model's timer changes |
| MainActivity.Tick | app/src/main/java/com/finalproject/MainActivity.java:191-221 | a running timer's tick shows its clock text; a tick rendering `time_end` completes the session (totals +5 and +1, stored and dated today) and any other leaves totals and store alone; a growth moves the home image to the clamped new count; state, receivers and audio are kept, and so are keys other than the three statistics |
| MainActivity.Finish | app/src/main/java/com/finalproject/MainActivity.java:159-161 | the "0" published at the end resets the activity's mirror of the count, but not the view model's counter; nothing but the view model and home image index changes |
| MainActivity.StopServiceAndTimers | app/src/main/java/com/finalproject/MainActivity.java:167-175 | nothing happens while resumed; otherwise it throws exactly when no timer exists, and the invariant is kept |
| MainActivity.Suspend | app/src/main/java/com/finalproject/MainActivity.java:110-121 | pause or stop stops the music, cancels the timer, shows `time_start` and the first image, and publishes "0"; it throws exactly when no session was ever started; the growth counter, sprout time and receivers are kept |
| MainActivity.Resume | app/src/main/java/com/finalproject/MainActivity.java:124-139 | resume registers one more receiver and throws exactly when a stored total is not a decimal int; both stored totals are adopted only when dated today and larger; the in-memory minutes never fall; apart from the state, the receiver count, the totals, the mirror index and the published "0", nothing changes |
| MainActivity.PressHome | app/src/main/java/com/finalproject/MainActivity.java:258-262 | the home button shows the clamped mirror index and changes nothing else |
| MainActivity.Step | app/src/main/java/com/finalproject/FocusViewModel.java:143-146 | every event keeps the activity invariant and raises the growth counter by at most one, and only a timer tick raises it |
| MainActivity.RunGrowthBounded | app/src/main/java/com/finalproject/FocusViewModel.java:144-145 | over any event sequence the growth counter never falls and never passes three |
| MainActivity.CompletionReachesStats | app/src/main/java/com/finalproject/MainActivity.java:196-204 | a completed session grows the totals by 5 and 1, and the statistics screen shows the new totals the same day |
| MainActivity.FreshInstallResumeThrows | app/src/main/java/com/finalproject/MainActivity.java:129 | with no stored minutes, resume throws NumberFormatException |
| MainActivity.ResumeAfterCompletionSucceeds | app/src/main/java/com/finalproject/MainActivity.java:129-130 | once totals have been stored, resume no longer throws |
| MainActivity.ResumeIgnoresOtherDay | app/src/main/java/com/finalproject/MainActivity.java:132-137 | totals stored on another day are never adopted |
| MainActivity.CompletionCarriesTotalsAcrossDays | app/src/main/java/com/finalproject/MainActivity.java:198-201 | with an earlier day's totals in memory and in the store, today's screen shows zeros, yet one completion today records and shows those totals plus 5 minutes and 1 session |

## Left out

- CountDownTimer scheduling is not modelled. Ticks and the finish are inputs, and a cancelled timer delivers none. A second start replaces the timer slot; the earlier timer, which the code leaves running, is not modelled.
- LiveData dispatch is modelled as synchronous, always-active observers. The plant-count observer that `updatePlant` registers is treated as registered from the start. Re-delivery of the last value to a re-subscribing observer is not modelled.
- Broadcast delivery through LocalBroadcastManager is modelled as a direct, synchronous call to each registered receiver. Unregistering in `onDestroy` is not modelled.
- The current date comes from SimpleDateFormat and the default locale. It is an input (`today`) here.
- Gson's `\uXXXX` escapes for control and HTML characters are not modelled. Only `"` and `\` are escaped; a `dd-MM-yyyy` date contains no character Gson escapes.
- `Integer.parseInt` also accepts non-ASCII Unicode digits, and `toUpperCase()` (AudioService.java:97) handles non-ASCII letters and follows the default locale (under a Turkish or Azerbaijani locale 'i' becomes 'İ'). Both are modelled on ASCII only, with locale-independent upper-casing.
- Android resources (`time_start`, `time_end`, the flower image array) are parameters.
- Fragment transactions, animations, tooltips, permission requests, the first-run dialog and `onSaveInstanceState`/`onResumeFragments` (which only call super) are UI plumbing with no state of the model.
- MediaPlayer internals, volumes, the notification channel and `MediaPlayer.create` returning null are not modelled.
- The Volley request and JSON parsing are not modelled: the response is a list of (quote, author) pairs. A missing "q" or "a" key, which throws, and the error callback, which only logs, are left out.
- MusicFragment, MusicAdapter, HomeFragment and SongOption are context and are not part of this model.
- FocusViewModel.Minutes: `millis` is a natural number. The timer never reports a negative remaining time.
- MainActivity.UpdateHomeFragment: requires at least one flower image. With an empty `flower_img` array, `plantNames[0]` throws (MainActivity.java:306); the resource files are not part of this model and the image array is assumed non-empty, so that crash is not modelled, and every activity member carries the same assumption through `Inv`.
- MainActivity.Suspend: the totals and the store are stated to be unchanged only when `time_start` and `time_end` differ. With equal resources, the clock observer's completion accounting runs as in OnClockChanged.

=== FILE: access_shared_pref.dfy ===
/** The "FocusData" preference file: a map from keys to strings, with the
    empty string returned for a key never written. Today's date is stored
    in its JSON form and compared, after stripping, by string equality. */
module AccessSharedPref {
  import opened Base
  import opened Text

  type Store = map<string, string>

  const STORED_DATE := "stored_date"
  const UPDATED_FOCUS_TIME := "updated_focus_time"
  const UPDATED_FOCUS_SESSIONS := "updated_focus_sessions"
  const QUOTE := "quote"
  const AUTHOR := "author"

  /** The keys `storeFocusStats` writes. */
  const STAT_KEYS: set<string> := {STORED_DATE, UPDATED_FOCUS_TIME, UPDATED_FOCUS_SESSIONS}

  /** `retrieveData`: `getString(key, "")`. */
  function RetrieveData(store: Store, key: string): (v: string)
    ensures key !in store ==> v == ""
    ensures key in store ==> v == store[key]
  {
    if key in store then store[key] else ""
  }

  /** `getStoredDate`, `getFocusTime`, `getFocusSessions`: the three stat
      keys, "" when never written. */
  function GetStoredDate(store: Store): (v: string)
    ensures STORED_DATE !in store ==> v == ""
    ensures STORED_DATE in store ==> v == store[STORED_DATE]
  {
    RetrieveData(store, STORED_DATE)
  }

  function GetFocusTime(store: Store): (v: string)
    ensures UPDATED_FOCUS_TIME !in store ==> v == ""
    ensures UPDATED_FOCUS_TIME in store ==> v == store[UPDATED_FOCUS_TIME]
  {
    RetrieveData(store, UPDATED_FOCUS_TIME)
  }

  function GetFocusSessions(store: Store): (v: string)
    ensures UPDATED_FOCUS_SESSIONS !in store ==> v == ""
    ensures UPDATED_FOCUS_SESSIONS in store ==> v == store[UPDATED_FOCUS_SESSIONS]
  {
    RetrieveData(store, UPDATED_FOCUS_SESSIONS)
  }

  /** `getDate`: today's formatted date (an input of the model) in the JSON
      form Gson gives it, quotes included. */
  function GetDate(today: string): (d: string)
    ensures Plain(today) ==> d == ['"'] + today + ['"']
  {
    JsonString(today)
  }

  /** `storeFocusStats(total, sessions)`: writes today's date and the two
      totals as decimal text. Reading them back gives the same numbers, the
      stored date compares equal to today when today's text is plain, and
      every other key reads as before. */
  function StoreFocusStats(store: Store, today: string, total: Int32, sessions: Int32): (r: Store)
    ensures r.Keys == store.Keys + STAT_KEYS
    ensures GetFocusTime(r) == IntToDecimal(total) && ParseInt(GetFocusTime(r)) == Some(total)
    ensures GetFocusSessions(r) == IntToDecimal(sessions) && ParseInt(GetFocusSessions(r)) == Some(sessions)
    ensures GetStoredDate(r) == GetDate(today)
    ensures Plain(today) ==> CompareDates(r, today)
    ensures forall k :: k !in STAT_KEYS ==> RetrieveData(r, k) == RetrieveData(store, k)
  {
    ParseIntOfDecimal(total);
    ParseIntOfDecimal(sessions);
    var r := store[STORED_DATE := GetDate(today)]
                  [UPDATED_FOCUS_TIME := IntToDecimal(total)]
                  [UPDATED_FOCUS_SESSIONS := IntToDecimal(sessions)];
    StripJsonString(today);
    r
  }

  /** `storeQuote(quote, author)`: writes exactly the two quote keys. */
  function StoreQuote(store: Store, quote: string, author: string): (r: Store)
    ensures r.Keys == store.Keys + {QUOTE, AUTHOR}
    ensures RetrieveData(r, QUOTE) == quote && RetrieveData(r, AUTHOR) == author
    ensures forall k :: k != QUOTE && k != AUTHOR ==> RetrieveData(r, k) == RetrieveData(store, k)
  {
    store[QUOTE := quote][AUTHOR := author]
  }

  /** `formatStoredDate`: the stored date with every backslash and every
      double quote removed. */
  function FormatStoredDate(store: Store): (d: string)
    ensures '\\' !in d && '"' !in d
    ensures Plain(GetStoredDate(store)) ==> d == GetStoredDate(store)
    ensures forall day :: Plain(day) && GetStoredDate(store) == JsonString(day) ==> d == day
  {
    var d := RemoveChar(RemoveChar(GetStoredDate(store), '\\'), '"');
    assert forall day :: Plain(day) && GetStoredDate(store) == JsonString(day) ==> d == day by {
      forall day | Plain(day) && GetStoredDate(store) == JsonString(day)
        ensures d == day
      {
        StripJsonString(day);
      }
    }
    d
  }

  /** `formatCurrentDate`: today's JSON date with every double quote
      removed, which is today's date itself when that is plain text. */
  function FormatCurrentDate(today: string): (d: string)
    ensures '"' !in d
    ensures Plain(today) ==> d == today
  {
    var d := RemoveChar(GetDate(today), '"');
    StripJsonString(today);
    d
  }

  /** `compareDates`: exact equality of the two stripped strings. */
  function CompareDates(store: Store, today: string): (b: bool)
    ensures Plain(today) ==> (b <==> FormatStoredDate(store) == today)
  {
    FormatStoredDate(store) == FormatCurrentDate(today)
  }

  /** A store stamped on day `day` matches `today` exactly when the two day
      strings are equal: no calendar arithmetic, only text. */
  lemma StoredDateMatchesDay(store: Store, day: string, today: string)
    requires Plain(day) && Plain(today)
    requires GetStoredDate(store) == GetDate(day)
    ensures CompareDates(store, today) <==> day == today
  {
    StripJsonString(day);
  }

  /** Nothing stored yet: the stored date reads as "" and never matches a
      non-empty plain date. */
  lemma NoStoredDateNeverMatches(store: Store, today: string)
    requires STORED_DATE !in store
    requires Plain(today) && today != ""
    ensures !CompareDates(store, today)
  {
    assert GetStoredDate(store) == "";
  }
}

=== FILE: audio_service.dfy ===
/** The music service: one player slot, a foreground notification that
    shows the prettified song name, and the start/stop discipline of the
    slot. */
module AudioService {
  import opened Base
  import opened Text

  /** Service.START_NOT_STICKY. */
  const START_NOT_STICKY: int := 2

  /** A media player: the song it was created for (none for the bare player
      `onCreate` makes), whether it loops, whether it is playing. */
  datatype Player = Player(song: Option<int>, looping: bool, playing: bool)

  /** `songName` and `musicPlayer` are the service's fields; `foreground` and
      `notification` record the foreground notification and its text; and
      `released` lists, in order, the players the service has released. */
  datatype Service = Service(
    songName: Option<string>,
    player: Option<Player>,
    foreground: bool,
    notification: Option<Option<string>>,
    released: seq<Player>)

  /** The intent that starts the service: its "song_id" and "song_name"
      extras, either of which may be missing. */
  datatype MusicIntent = MusicIntent(songId: Option<int>, songName: Option<string>)

  /** `onCreate`: a bare player is made if the slot is empty. */
  function OnCreate(s: Service): (r: Service)
    ensures r.player.Some?
    ensures s.player.Some? ==> r == s
    ensures r.(player := s.player) == s
  {
    if s.player.None? then s.(player := Some(Player(None, false, false))) else s
  }

  /** The song-name formatting of `startNotifications`: every underscore
      becomes a space and the first character is upper-cased. A null name
      stays null; an empty name makes `substring(0, 1)` throw. */
  function FormatSongName(name: Option<string>): (r: Result<Option<string>>)
    ensures name.None? ==> r == Ok(None)
    ensures name == Some("") ==> r == Err(IndexOutOfBounds)
    ensures name.Some? && name.value != "" ==>
              && r.Ok? && r.value.Some?
              && var s, f := name.value, r.value.value;
              && |f| == |s|
              && '_' !in f
              && (forall i :: 0 <= i < |s| && s[i] == '_' ==> f[i] == ' ')
              && (forall i :: 0 < i < |s| && s[i] != '_' ==> f[i] == s[i])
              && (s[0] != '_' ==> f[0] == ToUpperAscii(s[0]))
  {
    match name
    case None => Ok(None)
    case Some(s) =>
      var spaced := ReplaceChar(s, '_', ' ');
      if |spaced| == 0 then Err(IndexOutOfBounds)
      else Ok(Some([ToUpperAscii(spaced[0])] + spaced[1..]))
  }

  /** Formatting a formatted name changes nothing more. */
  lemma FormatSongNameIdempotent(name: string)
    requires name != ""
    ensures var f := FormatSongName(Some(name)).value;
            FormatSongName(f) == Ok(f)
  {
    var f := FormatSongName(Some(name)).value.value;
    var g := FormatSongName(Some(f)).value.value;
    assert |g| == |f|;
    forall i | 0 <= i < |f|
      ensures g[i] == f[i]
    {
      assert f[i] != '_';
      if i == 0 {
        var spaced := ReplaceChar(name, '_', ' ');
        assert f[0] == ToUpperAscii(spaced[0]);
      }
    }
    assert g == f;
  }

  /** `startMusic(songId)`: any player in the slot is released first, then a
      new looping, playing player for the song takes the slot. */
  function StartMusic(s: Service, songId: int): (r: Service)
    ensures r.player == Some(Player(Some(songId), true, true))
    ensures s.player.None? ==> r.released == s.released
    ensures s.player.Some? ==>
              |r.released| == |s.released| + 1
              && r.released[..|s.released|] == s.released
              && r.released[|s.released|].song == s.player.value.song
              && !r.released[|s.released|].playing
    ensures r.songName == s.songName && r.foreground == s.foreground
    ensures r.notification == s.notification
  {
    var released := if s.player.Some? then s.released + [s.player.value.(playing := false)] else s.released;
    s.(released := released, player := Some(Player(Some(songId), true, true)))
  }

  /** `stopMusic`: acts only when a player exists, releasing it, emptying
      the slot and leaving the foreground. */
  function StopMusic(s: Service): (r: Service)
    ensures r.player.None?
    ensures s.player.None? ==> r == s
    ensures s.player.Some? ==>
              && !r.foreground && r.notification.None?
              && r.released == s.released + [s.player.value.(playing := false)]
    ensures r.songName == s.songName
  {
    match s.player
    case None => s
    case Some(p) =>
      s.(player := None, released := s.released + [p.(playing := false)], foreground := false, notification := None)
  }

  /** A second stop is a no-op. */
  lemma StopMusicIdempotent(s: Service)
    ensures StopMusic(StopMusic(s)) == StopMusic(s)
  {
  }

  /** `onDestroy`: stops the music. */
  function OnDestroy(s: Service): (r: Service)
    ensures r.player.None?
  {
    StopMusic(s)
  }

  /** `onStartCommand`: with a null intent nothing happens; otherwise the
      name is formatted for the foreground notification and the song starts.
      `START_NOT_STICKY` is returned either way. */
  function OnStartCommand(s: Service, intent: Option<MusicIntent>): (r: Result<(Service, int)>)
    ensures intent.None? ==> r == Ok((s, START_NOT_STICKY))
    ensures intent.Some? ==>
              (r.Err? <==> intent.value.songName == Some(""))
    ensures r.Ok? ==> r.value.1 == START_NOT_STICKY
    ensures r.Ok? && intent.Some? ==>
              var t := r.value.0;
              && t.foreground
              && t.notification == Some(t.songName)
              && FormatSongName(intent.value.songName) == Ok(t.songName)
              && t.player == Some(Player(Some(if intent.value.songId.Some? then intent.value.songId.value else 0), true, true))
              && t.released == if s.player.Some? then s.released + [s.player.value.(playing := false)] else s.released
  {
    match intent
    case None => Ok((s, START_NOT_STICKY))
    case Some(it) =>
      match FormatSongName(it.songName)
      case Err(e) => Err(e)
      case Ok(name) =>
        var shown := s.(songName := name, foreground := true, notification := Some(name));
        var songId := if it.songId.Some? then it.songId.value else 0;
        Ok((StartMusic(shown, songId), START_NOT_STICKY))
  }
}

=== FILE: base.dfy ===
/** Vocabulary shared by every module of the model: Java's nullable
    references, the unchecked exceptions that end a callback, and Java's
    32-bit `int` with its wrap-around. */
module Base {

  /** A Java reference that may be null. */
  datatype Option<+T> = None | Some(value: T)

  /** The unchecked exceptions the modelled code can raise. None of them is
      caught anywhere in the application, so each one ends the process. */
  datatype Crash =
    | NullPointer       // a method called on a null reference
    | NumberFormat      // Integer.parseInt on text that is not a decimal int
    | IndexOutOfBounds  // String.substring past the end of the string

  /** The outcome of a callback that may throw. */
  datatype Result<+T> = Ok(value: T) | Err(crash: Crash)

  const MIN_INT: int := -0x8000_0000
  const MAX_INT: int := 0x7fff_ffff

  /** Java's `int`. */
  type Int32 = x: int | MIN_INT <= x <= MAX_INT

  /** Two's-complement truncation of a mathematical integer to 32 bits. */
  function Wrap(x: int): (r: Int32)
    ensures MIN_INT <= x <= MAX_INT ==> r == x
    ensures (x - r) % 0x1_0000_0000 == 0
  {
    (x - MIN_INT) % 0x1_0000_0000 + MIN_INT
  }

  /** Java's `a + b` on `int` operands. */
  function Add32(a: Int32, b: Int32): (r: Int32)
    ensures a + b <= MAX_INT && MIN_INT <= a + b ==> r == a + b
    ensures a + b > MAX_INT ==> r == a + b - 0x1_0000_0000
    ensures a + b < MIN_INT ==> r == a + b + 0x1_0000_0000
  {
    Wrap(a + b)
  }

  function Min(a: int, b: int): (m: int)
    ensures m <= a && m <= b && (m == a || m == b)
  {
    if a <= b then a else b
  }
}

=== FILE: focus_view_model.dfy ===
/** The view model that runs the five-minute countdown: every tick renders
    the remaining time as "m:ss" and, when the rendering is one of three
    milestone strings, grows the plant by one stage up to three. */
module FocusViewModel {
  import opened Base
  import opened Text

  const CLOCK_TICK: nat := 1000
  const FOCUS_TIME: nat := 5
  const FLOWER_ARR_SIZE: int := 3
  /** Five minutes in milliseconds. */
  const FOCUS_DURATION: nat := FOCUS_TIME * 60 * 1000

  /** The renderings at which the plant grows, checked in this order. */
  const GROWTH_TIME: seq<string> := ["3:50", "2:00", "0:30"]

  /** The same milestones as whole seconds remaining. */
  const MILESTONE_SECONDS: set<nat> := {230, 120, 30}

  /** The view model's `countDownTimer` field: null until the first start. */
  datatype Timer = NoTimer | Running | Cancelled

  /** `plantCount` is the private growth counter; the three options are the
      current values of the published live data, `None` before the first
      publication. */
  datatype ViewModel = ViewModel(
    plantCount: int,
    clockTime: Option<string>,
    publishedPlantCount: Option<string>,
    sproutTime: Option<string>,
    timer: Timer)

  const INITIAL: ViewModel := ViewModel(0, None, None, None, NoTimer)

  /** The counter never leaves 0..FLOWER_ARR_SIZE. */
  predicate Valid(vm: ViewModel) {
    0 <= vm.plantCount <= FLOWER_ARR_SIZE
  }

  /** `TimeUnit.MILLISECONDS.toMinutes`: whole minutes, rounded down. */
  function Minutes(millis: nat): (m: nat)
    ensures m * 60_000 <= millis < (m + 1) * 60_000
  {
    millis / 60_000
  }

  /** Whole seconds minus the whole minutes in seconds: the seconds field of
      the clock. */
  function Seconds(millis: nat): (s: int)
    ensures 0 <= s < 60
    ensures Minutes(millis) * 60 + s == millis / 1000
  {
    WholeSecondsSplit(millis);
    millis / 1000 - Minutes(millis) * 60
  }

  lemma WholeSecondsSplit(millis: nat)
    ensures Minutes(millis) * 60 <= millis / 1000 < Minutes(millis) * 60 + 60
  {
    var m, q := Minutes(millis), millis / 1000;
    assert q * 1000 <= millis < q * 1000 + 1000;
    assert m * 60_000 <= millis < m * 60_000 + 60_000;
  }

  /** The clock text a tick publishes: `String.format("%d:%02d", ...)`. */
  function ClockText(millis: nat): (t: string)
    ensures |t| >= 4 && t[|t| - 3] == ':'
    ensures t[..|t| - 3] == NatToDecimal(Minutes(millis))
    ensures t[|t| - 2..] == [DigitChar(Seconds(millis) / 10), DigitChar(Seconds(millis) % 10)]
  {
    Pad2TwoDigits(Seconds(millis));
    ClockFormat(Minutes(millis), Seconds(millis))
  }

  /** Two concrete renderings: 230 000 ms is "3:50" and 30 000 ms is "0:30". */
  lemma ClockTextExamples()
    ensures ClockText(230_000) == "3:50"
    ensures ClockText(30_000) == "0:30"
  {
    assert NatToDecimal(50) == NatToDecimal(5) + ['0'];
    assert NatToDecimal(30) == NatToDecimal(3) + ['0'];
  }

  /** The exact-string milestone test is the numeric test "this many whole
      seconds remain": a tick's rendering is a milestone string exactly
      when its whole seconds are one of 230, 120 and 30. */
  lemma ClockTextMatchesMilestone(millis: nat)
    ensures ClockText(millis) in GROWTH_TIME <==> millis / 1000 in MILESTONE_SECONDS
  {
    var m, s := Minutes(millis), Seconds(millis);
    var t := ClockFormat(m, s);
    assert ClockText(millis) == t;
    assert NatToDecimal(50) == NatToDecimal(5) + ['0'];
    assert NatToDecimal(30) == NatToDecimal(3) + ['0'];
    assert NatToDecimal(0) == ['0'];
    assert GROWTH_TIME[0] == ClockFormat(3, 50);
    assert GROWTH_TIME[1] == ClockFormat(2, 0);
    assert GROWTH_TIME[2] == ClockFormat(0, 30);
    if t == GROWTH_TIME[0] {
      ClockFormatInjective(m, s, 3, 50);
    } else if t == GROWTH_TIME[1] {
      ClockFormatInjective(m, s, 2, 0);
    } else if t == GROWTH_TIME[2] {
      ClockFormatInjective(m, s, 0, 30);
    }
  }

  /** One growth step: bump the counter and publish it and the sprout name. */
  function Grow(vm: ViewModel): (r: ViewModel)
    ensures r.plantCount == vm.plantCount + 1
    ensures r.publishedPlantCount.Some? && r.sproutTime == Some("plant" + r.publishedPlantCount.value)
    ensures r.clockTime == vm.clockTime && r.timer == vm.timer
  {
    var n := vm.plantCount + 1;
    vm.(plantCount := n,
        publishedPlantCount := Some(IntToDecimal(n)),
        sproutTime := Some("plant" + IntToDecimal(n)))
  }

  /** The loop of `onTick` over the milestone strings, each one compared
      with the rendering and followed by a growth step while the counter is
      below the cap. */
  function CheckGrowth(vm: ViewModel, sTime: string, checks: seq<string>): (r: ViewModel)
    ensures sTime !in checks ==> r == vm
    ensures vm.plantCount <= r.plantCount
    ensures Valid(vm) ==> Valid(r)
    ensures r.clockTime == vm.clockTime && r.timer == vm.timer
    decreases |checks|
  {
    if checks == [] then vm
    else
      var next := if sTime == checks[0] && vm.plantCount < FLOWER_ARR_SIZE then Grow(vm) else vm;
      CheckGrowth(next, sTime, checks[1..])
  }

  /** With pairwise different milestone strings the loop grows the plant at
      most once: exactly when the rendering is one of them and the cap has
      not been reached. */
  lemma {:induction false} CheckGrowthAtMostOnce(vm: ViewModel, sTime: string, checks: seq<string>)
    requires forall i, j :: 0 <= i < j < |checks| ==> checks[i] != checks[j]
    ensures CheckGrowth(vm, sTime, checks)
         == if sTime in checks && vm.plantCount < FLOWER_ARR_SIZE then Grow(vm) else vm
    decreases |checks|
  {
    if checks != [] {
      if sTime == checks[0] {
        assert sTime !in checks[1..];
      } else {
        assert sTime in checks <==> sTime in checks[1..];
        CheckGrowthAtMostOnce(vm, sTime, checks[1..]);
      }
    }
  }

  /** `onTick(millis)`: publish the clock text, then run the milestone loop.
      The counter grows by one exactly when the whole seconds remaining are
      a milestone and the cap is not reached; the new count is published
      with the sprout name "plant<count>". Nothing else changes. */
  function Tick(vm: ViewModel, millis: nat): (r: ViewModel)
    ensures r.clockTime == Some(ClockText(millis))
    ensures r.timer == vm.timer
    ensures r.plantCount
         == if millis / 1000 in MILESTONE_SECONDS && vm.plantCount < FLOWER_ARR_SIZE
            then vm.plantCount + 1 else vm.plantCount
    ensures r.plantCount > vm.plantCount ==>
              r.publishedPlantCount == Some(IntToDecimal(r.plantCount))
              && r.sproutTime == Some("plant" + IntToDecimal(r.plantCount))
    ensures r.plantCount == vm.plantCount ==> r == vm.(clockTime := Some(ClockText(millis)))
  {
    var sTime := ClockText(millis);
    var published := vm.(clockTime := Some(sTime));
    ClockTextMatchesMilestone(millis);
    CheckGrowthAtMostOnce(published, sTime, GROWTH_TIME);
    CheckGrowth(published, sTime, GROWTH_TIME)
  }

  /** `onFinish`: cancels the timer and publishes "0" as the plant count; the
      private counter keeps its value. */
  function OnFinish(vm: ViewModel): (r: ViewModel)
    ensures r.publishedPlantCount == Some("0")
    ensures r.plantCount == vm.plantCount
    ensures r.timer == Cancelled
    ensures r.clockTime == vm.clockTime && r.sproutTime == vm.sproutTime
  {
    vm.(timer := Cancelled, publishedPlantCount := Some("0"))
  }

  /** `startCountDownTimer`: installs a new running timer. The growth counter
      is not reset, so a new session continues from the previous count. */
  function StartCountDownTimer(vm: ViewModel): (r: ViewModel)
    ensures r.timer == Running
    ensures r.plantCount == vm.plantCount
    ensures r.(timer := vm.timer) == vm
  {
    vm.(timer := Running)
  }

  /** `getCountDownTimer().cancel()`: `None` when the timer field is still
      null, where the call throws NullPointerException. */
  function CancelTimer(vm: ViewModel): (r: Option<ViewModel>)
    ensures r.None? <==> vm.timer == NoTimer
    ensures r.Some? ==> r.value.timer == Cancelled && r.value.(timer := vm.timer) == vm
  {
    if vm.timer == NoTimer then None else Some(vm.(timer := Cancelled))
  }

  /** `updateClockTime`: a null argument is ignored. */
  function UpdateClockTime(vm: ViewModel, tickTime: Option<string>): (r: ViewModel)
    ensures tickTime.None? ==> r == vm
    ensures tickTime.Some? ==> r.clockTime == tickTime && r.(clockTime := vm.clockTime) == vm
  {
    if tickTime.Some? then vm.(clockTime := tickTime) else vm
  }

  /** `updatePlantCount`: a null argument is ignored. */
  function UpdatePlantCount(vm: ViewModel, numPlant: Option<string>): (r: ViewModel)
    ensures numPlant.None? ==> r == vm
    ensures numPlant.Some? ==>
              r.publishedPlantCount == numPlant && r.(publishedPlantCount := vm.publishedPlantCount) == vm
  {
    if numPlant.Some? then vm.(publishedPlantCount := numPlant) else vm
  }

  /** `updateSproutTime`: a null argument is ignored. */
  function UpdateSproutTime(vm: ViewModel, growthTime: Option<string>): (r: ViewModel)
    ensures growthTime.None? ==> r == vm
    ensures growthTime.Some? ==> r.sproutTime == growthTime && r.(sproutTime := vm.sproutTime) == vm
  {
    if growthTime.Some? then vm.(sproutTime := growthTime) else vm
  }

  /** A sequence of ticks delivered in order. */
  function RunTicks(vm: ViewModel, ticks: seq<nat>): ViewModel
    decreases |ticks|
  {
    if ticks == [] then vm else RunTicks(Tick(vm, ticks[0]), ticks[1..])
  }

  /** How many of the ticks fall on a milestone second. */
  function MilestoneTicks(ticks: seq<nat>): nat
    decreases |ticks|
  {
    if ticks == [] then 0
    else (if ticks[0] / 1000 in MILESTONE_SECONDS then 1 else 0) + MilestoneTicks(ticks[1..])
  }

  /** After any sequence of ticks the counter is the starting count plus the
      number of milestone ticks, capped at three: it never decreases, and
      every milestone tick (a repeated one included) grows the plant while
      the cap allows. */
  lemma {:induction false} RunTicksGrowth(vm: ViewModel, ticks: seq<nat>)
    requires Valid(vm)
    ensures RunTicks(vm, ticks).plantCount
         == Min(FLOWER_ARR_SIZE, vm.plantCount + MilestoneTicks(ticks))
    decreases |ticks|
  {
    if ticks != [] {
      var next := Tick(vm, ticks[0]);
      var hit := if ticks[0] / 1000 in MILESTONE_SECONDS then 1 else 0;
      assert next.plantCount == Min(FLOWER_ARR_SIZE, vm.plantCount + hit);
      assert MilestoneTicks(ticks) == hit + MilestoneTicks(ticks[1..]);
      RunTicksGrowth(next, ticks[1..]);
    }
  }

  /** The ideal tick schedule: one tick per whole second, from `hi` seconds
      remaining down to `lo` seconds remaining. */
  function Countdown(hi: nat, lo: nat): seq<nat>
    decreases hi
  {
    if hi < lo then [] else [hi * CLOCK_TICK] + (if hi == 0 then [] else Countdown(hi - 1, lo))
  }

  function Reached(b: bool): nat {
    if b then 1 else 0
  }

  lemma {:induction false} CountdownMilestones(hi: nat, lo: nat)
    ensures MilestoneTicks(Countdown(hi, lo))
         == Reached(lo <= 230 <= hi) + Reached(lo <= 120 <= hi) + Reached(lo <= 30 <= hi)
    decreases hi
  {
    if hi >= lo {
      var c := Countdown(hi, lo);
      assert c[0] / 1000 == hi;
      if hi == 0 {
        assert c[1..] == [];
      } else {
        assert c[1..] == Countdown(hi - 1, lo);
        CountdownMilestones(hi - 1, lo);
      }
    }
  }

  /** A fresh session ticking once per whole second from `hi` seconds
      remaining (at least 3:50) down to `lo`: the plant has grown once per
      milestone passed, so it reaches stage three exactly at the tick that
      renders "0:30" and stays there until the end. */
  lemma {:induction false} SessionGrowth(hi: nat, lo: nat)
    requires 230 <= hi
    ensures RunTicks(INITIAL, Countdown(hi, lo)).plantCount
         == Reached(lo <= 230) + Reached(lo <= 120) + Reached(lo <= 30)
  {
    CountdownMilestones(hi, lo);
    RunTicksGrowth(INITIAL, Countdown(hi, lo));
  }

  /** A whole session on the ideal schedule, from the first second below
      the five minutes down to the last tick at one second remaining, ends
      at stage three. */
  lemma FullSessionGrowth()
    ensures RunTicks(INITIAL, Countdown(FOCUS_DURATION / CLOCK_TICK - 1, 1)).plantCount == FLOWER_ARR_SIZE
  {
    SessionGrowth(FOCUS_DURATION / CLOCK_TICK - 1, 1);
  }

  /** One growth step publishes a count that `Integer.parseInt` reads back
      as the new counter value, the value the activity's observer adopts. */
  lemma GrowPublishesCount(vm: ViewModel)
    requires Valid(vm) && vm.plantCount < FLOWER_ARR_SIZE
    ensures ParseInt(Grow(vm).publishedPlantCount.value) == Some(Grow(vm).plantCount)
  {
    ParseIntOfDecimal(vm.plantCount + 1);
  }

  /** Two ticks that render the same milestone (a delayed tick followed by
      a prompt one, both in the same whole second) grow the plant twice
      while the cap allows: the milestone test does not remember which
      strings already matched. */
  lemma RepeatedMilestoneGrowsTwice(vm: ViewModel, first: nat, second: nat)
    requires Valid(vm) && vm.plantCount <= FLOWER_ARR_SIZE - 2
    requires first / 1000 == second / 1000
    requires ClockText(first) in GROWTH_TIME
    ensures ClockText(second) == ClockText(first)
    ensures RunTicks(vm, [first, second]).plantCount == vm.plantCount + 2
  {
    WholeSecondsSplit(first);
    WholeSecondsSplit(second);
    assert Minutes(first) == Minutes(second);
    ClockTextMatchesMilestone(first);
    ClockTextMatchesMilestone(second);
    var v1 := Tick(vm, first);
    var v2 := Tick(v1, second);
    assert [first, second][1..] == [second];
    assert [second][1..] == [];
    assert RunTicks(v1, [second]) == RunTicks(v2, []);
    assert RunTicks(vm, [first, second]) == RunTicks(v1, [second]);
  }

  /** A session started after a finished one inherits its counter: once a
      session has reached stage three, no later session grows at all. */
  lemma LaterSessionInherits(vm: ViewModel, ticks: seq<nat>)
    requires vm.plantCount == FLOWER_ARR_SIZE
    ensures RunTicks(StartCountDownTimer(OnFinish(vm)), ticks).plantCount == FLOWER_ARR_SIZE
  {
    RunTicksGrowth(StartCountDownTimer(OnFinish(vm)), ticks);
  }
}

=== FILE: main_activity.dfy ===
/** The activity that drives a session: the plant button's start guard,
    the clock observer's completion accounting, the suspend path that
    cancels everything, the resume path that reconciles the in-memory
    totals with the stored ones, and the clamp on the plant image index.
    Observers and the broadcast are modelled as direct calls. */
module MainActivity {
  import opened Base
  import opened Text
  import opened AccessSharedPref
  import VM = FocusViewModel
  import PR = PlantReceiver
  import Audio = AudioService
  import Stats = StatsFragment

  /** Minutes credited for one completed session. */
  const FOCUS_TIME: Int32 := 5

  /** `activityState`, null until the first lifecycle callback. */
  datatype ActivityState = Unset | Resumed | Paused | Stopped

  /** The resources the activity reads: `time_start`, `time_end` and the
      length of the `flower_img` array. */
  datatype Resources = Resources(timeStart: string, timeEnd: string, flowerImages: nat)

  /** Everything the activity's callbacks read or write:
      - `clockText`: the stop-watch text view;
      - `focusTotal`, `focusSessions`: the static in-memory totals;
      - `plantIndex`: the static `plantCount` that mirrors the published count;
      - `homeImage`: the flower index last handed to the home fragment
        (`None` while it shows the layout's own image);
      - `receivers`: how many plant receivers are registered;
      - `vm`: the view model; `store`: the preference file;
      - `audio`: the music service, when it runs. */
  datatype App = App(
    state: ActivityState,
    clockText: string,
    focusTotal: Int32,
    focusSessions: Int32,
    plantIndex: int,
    homeImage: Option<int>,
    receivers: nat,
    vm: VM.ViewModel,
    store: Store,
    audio: Option<Audio.Service>)

  /** A fresh process: `onCreate` registers one receiver; the clock shows
      the layout's text. */
  function Launch(res: Resources, store: Store, layoutClock: string, audio: Option<Audio.Service>): (r: App)
    requires res.flowerImages >= 1
    ensures Inv(r, res)
    ensures r.focusTotal == 0 && r.focusSessions == 0 && r.vm.timer == VM.NoTimer
    ensures r.receivers == 1 && r.vm == VM.INITIAL && r.state == Unset && r.store == store
  {
    App(Unset, layoutClock, 0, 0, 0, None, 1, VM.INITIAL, store, audio)
  }

  /** The states every callback keeps. */
  predicate Inv(app: App, res: Resources) {
    && res.flowerImages >= 1
    && VM.Valid(app.vm)
    && 0 <= app.plantIndex <= VM.FLOWER_ARR_SIZE
    && (app.homeImage.Some? ==> 0 <= app.homeImage.value < res.flowerImages)
    && app.receivers >= 1
  }

  /** `updateHomeFragment`: an index past the last image is replaced by 0,
      so a non-negative index always names an image. */
  function UpdateHomeFragment(plantCount: int, imageCount: nat): (index: int)
    requires plantCount >= 0 && imageCount >= 1
    ensures 0 <= index < imageCount
    ensures plantCount < imageCount ==> index == plantCount
    ensures plantCount >= imageCount ==> index == 0
  {
    if plantCount > imageCount - 1 then 0 else plantCount
  }

  /** The broadcast a completed session sends. */
  function CompletionIntent(total: Int32, sessions: Int32): PR.Intent {
    PR.Intent(Some(PR.CUSTOM_BROADCAST), Some(map[PR.UPDATE_FOCUS := total, PR.FOCUS_SESSIONS := sessions]))
  }

  /** The clock observer of `updateClock`: the text view shows the new time;
      when that is `time_end` the static totals grow by five minutes and one
      session (as Java `int`s) and the new totals are broadcast to every
      registered receiver, which store them with today's date. Any other
      text changes nothing else. */
  function OnClockChanged(app: App, res: Resources, today: string, text: string): (r: App)
    ensures r.clockText == text
    ensures text != res.timeEnd ==> r == app.(clockText := text)
    ensures text == res.timeEnd ==>
              && r.focusTotal == Add32(app.focusTotal, FOCUS_TIME)
              && r.focusSessions == Add32(app.focusSessions, 1)
              && r == app.(clockText := text, focusTotal := r.focusTotal,
                           focusSessions := r.focusSessions, store := r.store)
    ensures text == res.timeEnd && app.receivers >= 1 ==>
              && ParseInt(GetFocusTime(r.store)) == Some(r.focusTotal)
              && ParseInt(GetFocusSessions(r.store)) == Some(r.focusSessions)
              && GetStoredDate(r.store) == GetDate(today)
    ensures forall k :: k !in STAT_KEYS ==> RetrieveData(r.store, k) == RetrieveData(app.store, k)
  {
    if text == res.timeEnd then
      var total := Add32(app.focusTotal, FOCUS_TIME);
      var sessions := Add32(app.focusSessions, 1);
      var intent := CompletionIntent(total, sessions);
      var store := PR.Deliver(app.store, today, intent, app.receivers);
      PR.DeliverToMany(app.store, today, intent, app.receivers);
      app.(clockText := text, focusTotal := total, focusSessions := sessions, store := store)
    else app.(clockText := text)
  }

  /** The plant button: a session starts only when the clock shows
      `time_start` or `time_end`; any other text makes the press a no-op. */
  function PressPlant(app: App, res: Resources): (r: App)
    ensures app.clockText == res.timeStart || app.clockText == res.timeEnd ==>
              r.vm.timer == VM.Running && r == app.(vm := r.vm) && r.vm.plantCount == app.vm.plantCount
    ensures app.clockText != res.timeStart && app.clockText != res.timeEnd ==> r == app
    ensures r.vm.(timer := app.vm.timer) == app.vm
  {
    if app.clockText == res.timeStart || app.clockText == res.timeEnd then
      app.(vm := VM.StartCountDownTimer(app.vm))
    else app
  }

  /** One tick of the running timer: the view model renders the time and
      maybe grows the plant; the clock observer runs; a growth reaches the
      activity through the published count and the sprout time, and the
      home fragment shows the clamped new index. A timer that is not running
      delivers no tick. */
  function Tick(app: App, res: Resources, today: string, millis: nat): (r: App)
    requires Inv(app, res)
    ensures Inv(r, res)
    ensures app.vm.timer != VM.Running ==> r == app
    ensures r.state == app.state && r.receivers == app.receivers && r.audio == app.audio
    ensures forall k :: k !in STAT_KEYS ==> RetrieveData(r.store, k) == RetrieveData(app.store, k)
    ensures app.vm.timer == VM.Running && VM.ClockText(millis) != res.timeEnd ==>
              r.focusTotal == app.focusTotal && r.focusSessions == app.focusSessions && r.store == app.store
    ensures app.vm.timer == VM.Running && VM.ClockText(millis) == res.timeEnd ==>
              && r.focusTotal == Add32(app.focusTotal, FOCUS_TIME)
              && r.focusSessions == Add32(app.focusSessions, 1)
              && ParseInt(GetFocusTime(r.store)) == Some(r.focusTotal)
              && ParseInt(GetFocusSessions(r.store)) == Some(r.focusSessions)
              && GetStoredDate(r.store) == GetDate(today)
    ensures app.vm.timer == VM.Running ==>
              && r.clockText == VM.ClockText(millis)
              && r.vm == VM.Tick(app.vm, millis)
              && (r.vm.plantCount > app.vm.plantCount ==>
                    r.plantIndex == r.vm.plantCount
                    && r.homeImage == Some(UpdateHomeFragment(r.vm.plantCount, res.flowerImages)))
              && (r.vm.plantCount == app.vm.plantCount ==>
                    r.plantIndex == app.plantIndex && r.homeImage == app.homeImage)
  {
    if app.vm.timer != VM.Running then app
    else
      var vm1 := VM.Tick(app.vm, millis);
      var app1 := OnClockChanged(app.(vm := vm1), res, today, VM.ClockText(millis));
      if vm1.plantCount > app.vm.plantCount then
        app1.(plantIndex := vm1.plantCount,
              homeImage := Some(UpdateHomeFragment(vm1.plantCount, res.flowerImages)))
      else app1
  }

  /** The timer's `onFinish`: the "0" it publishes reaches the activity's
      mirror of the count; the view model's own counter is kept. */
  function Finish(app: App, res: Resources): (r: App)
    requires Inv(app, res)
    ensures Inv(r, res)
    ensures app.vm.timer != VM.Running ==> r == app
    ensures app.vm.timer == VM.Running ==>
              r.vm == VM.OnFinish(app.vm) && r.plantIndex == 0 && r.vm.plantCount == app.vm.plantCount
    ensures r.(vm := app.vm, plantIndex := app.plantIndex) == app
  {
    if app.vm.timer != VM.Running then app
    else app.(vm := VM.OnFinish(app.vm), plantIndex := 0)
  }

  /** `stopServiceAndTimers`: unless the activity is resumed, the music
      service is stopped, the timer cancelled (which throws when no session
      was ever started), the clock reset to `time_start`, "0" published as
      the plant count and the home fragment shown the first image. */
  function StopServiceAndTimers(app: App, res: Resources, today: string): (r: Result<App>)
    requires Inv(app, res)
    ensures app.state == Resumed ==> r == Ok(app)
    ensures app.state != Resumed ==> (r.Err? <==> app.vm.timer == VM.NoTimer)
    ensures r.Err? ==> r.crash == NullPointer
    ensures r.Ok? ==> Inv(r.value, res)
  {
    if app.state == Resumed then Ok(app)
    else
      var stopped := app.(audio := None);
      match VM.CancelTimer(stopped.vm)
      case None => Err(NullPointer)
      case Some(vm1) =>
        var vm2 := VM.UpdateClockTime(vm1, Some(res.timeStart));
        var app2 := OnClockChanged(stopped.(vm := vm2), res, today, res.timeStart);
        var vm3 := VM.UpdatePlantCount(app2.vm, Some("0"));
        Ok(app2.(vm := vm3, plantIndex := 0, homeImage := Some(UpdateHomeFragment(0, res.flowerImages))))
  }

  /** `onPause` and `onStop`: the state is set to PAUSED or STOPPED just
      before `stopServiceAndTimers`, so its guard always passes. The music is
      stopped, the timer cancelled, the clock shows `time_start`, the
      published plant count is "0" and the home image is the first one; the
      growth counter is kept. The only failure is the null timer of a
      process in which no session was ever started. */
  function Suspend(app: App, res: Resources, today: string, into: ActivityState): (r: Result<App>)
    requires Inv(app, res)
    requires into == Paused || into == Stopped
    ensures r.Err? <==> app.vm.timer == VM.NoTimer
    ensures r.Err? ==> r.crash == NullPointer
    ensures r.Ok? ==>
              var a := r.value;
              && Inv(a, res)
              && a.state == into
              && a.audio.None?
              && a.vm.timer == VM.Cancelled
              && a.clockText == res.timeStart
              && a.vm.clockTime == Some(res.timeStart)
              && a.vm.publishedPlantCount == Some("0")
              && a.plantIndex == 0
              && a.homeImage == Some(0)
              && a.vm.plantCount == app.vm.plantCount
              && a.receivers == app.receivers && a.vm.sproutTime == app.vm.sproutTime
              && (res.timeStart != res.timeEnd ==>
                    a.focusTotal == app.focusTotal && a.focusSessions == app.focusSessions
                    && a.store == app.store)
  {
    StopServiceAndTimers(app.(state := into), res, today)
  }

  /** `onResume`: registers one more receiver, parses the stored totals
      (throwing on anything that is not a decimal `int`, the "" of a fresh
      install included), adopts both stored totals together only when the
      stored date is today and the stored minutes exceed the in-memory
      total, and publishes "0" as the plant count. */
  function Resume(app: App, res: Resources, today: string): (r: Result<App>)
    requires Inv(app, res)
    ensures r.Err? <==>
              ParseInt(GetFocusTime(app.store)).None? || ParseInt(GetFocusSessions(app.store)).None?
    ensures r.Err? ==> r.crash == NumberFormat
    ensures r.Ok? ==>
              var a := r.value;
              var t, s := ParseInt(GetFocusTime(app.store)).value, ParseInt(GetFocusSessions(app.store)).value;
              && Inv(a, res)
              && a.state == Resumed
              && a.receivers == app.receivers + 1
              && a.vm.publishedPlantCount == Some("0")
              && a.plantIndex == 0
              && a.focusTotal >= app.focusTotal
              && (CompareDates(app.store, today) && t > app.focusTotal ==>
                    a.focusTotal == t && a.focusSessions == s)
              && (!(CompareDates(app.store, today) && t > app.focusTotal) ==>
                    a.focusTotal == app.focusTotal && a.focusSessions == app.focusSessions)
              && a.store == app.store && a.clockText == app.clockText
              && a == app.(state := Resumed, receivers := app.receivers + 1, plantIndex := 0,
                           focusTotal := a.focusTotal, focusSessions := a.focusSessions,
                           vm := app.vm.(publishedPlantCount := Some("0")))
  {
    var registered := app.(receivers := app.receivers + 1, state := Resumed);
    match ParseInt(GetFocusTime(app.store))
    case None => Err(NumberFormat)
    case Some(t) =>
      match ParseInt(GetFocusSessions(app.store))
      case None => Err(NumberFormat)
      case Some(s) =>
        var reconciled :=
          if CompareDates(app.store, today) && t > app.focusTotal
          then registered.(focusTotal := t, focusSessions := s)
          else registered;
        Ok(reconciled.(vm := VM.UpdatePlantCount(reconciled.vm, Some("0")), plantIndex := 0))
  }

  /** The home button: the home fragment shows the clamped mirror index. */
  function PressHome(app: App, res: Resources): (r: App)
    requires Inv(app, res)
    ensures Inv(r, res)
    ensures r.homeImage == Some(UpdateHomeFragment(app.plantIndex, res.flowerImages))
    ensures r == app.(homeImage := r.homeImage)
  {
    app.(homeImage := Some(UpdateHomeFragment(app.plantIndex, res.flowerImages)))
  }

  /** The inputs the activity reacts to. */
  datatype Event =
    | PlantPressed
    | HomePressed
    | TimerTick(millis: nat)
    | TimerFinish
    | ProcessPause
    | ProcessStop
    | ProcessResume

  /** One event; `Err` when its callback throws. */
  function Step(app: App, res: Resources, today: string, ev: Event): (r: Result<App>)
    requires Inv(app, res)
    ensures r.Ok? ==> Inv(r.value, res)
    ensures r.Ok? ==>
              app.vm.plantCount <= r.value.vm.plantCount <= app.vm.plantCount + 1
    ensures r.Ok? && r.value.vm.plantCount == app.vm.plantCount + 1 ==> ev.TimerTick?
  {
    match ev
    case PlantPressed => Ok(PressPlant(app, res))
    case HomePressed => Ok(PressHome(app, res))
    case TimerTick(millis) => Ok(Tick(app, res, today, millis))
    case TimerFinish => Ok(Finish(app, res))
    case ProcessPause => Suspend(app, res, today, Paused)
    case ProcessStop => Suspend(app, res, today, Stopped)
    case ProcessResume => Resume(app, res, today)
  }

  /** A sequence of events, up to the first callback that throws. */
  function Run(app: App, res: Resources, today: string, events: seq<Event>): Result<App>
    requires Inv(app, res)
    decreases |events|
  {
    if events == [] then Ok(app)
    else
      match Step(app, res, today, events[0])
      case Err(e) => Err(e)
      case Ok(next) => Run(next, res, today, events[1..])
  }

  /** Over a whole process the growth counter only rises, one step at a
      time, and never past three: at most three growth steps per process,
      however many sessions it runs. */
  lemma {:induction false} RunGrowthBounded(app: App, res: Resources, today: string, events: seq<Event>)
    requires Inv(app, res)
    ensures var r := Run(app, res, today, events);
            r.Ok? ==> Inv(r.value, res) && app.vm.plantCount <= r.value.vm.plantCount <= VM.FLOWER_ARR_SIZE
    decreases |events|
  {
    if events != [] {
      var s := Step(app, res, today, events[0]);
      if s.Ok? {
        RunGrowthBounded(s.value, res, today, events[1..]);
      }
    }
  }

  /** A completed session, end to end: the totals grow by 5 and 1, reach the
      store through the broadcast, and the statistics screen shows them the
      same day. */
  lemma CompletionReachesStats(app: App, res: Resources, today: string)
    requires Inv(app, res) && Plain(today)
    ensures var r := OnClockChanged(app, res, today, res.timeEnd);
            && r.focusTotal == Add32(app.focusTotal, FOCUS_TIME)
            && r.focusSessions == Add32(app.focusSessions, 1)
            && Stats.OnCreateView(r.store, today)
               == Stats.StatsView(IntToDecimal(r.focusTotal), IntToDecimal(r.focusSessions))
  {
    var r := OnClockChanged(app, res, today, res.timeEnd);
    var intent := CompletionIntent(r.focusTotal, r.focusSessions);
    PR.DeliverToMany(app.store, today, intent, app.receivers);
    assert r.store == StoreFocusStats(app.store, today, r.focusTotal, r.focusSessions);
    Stats.StoredTodayShowsTotals(app.store, today, r.focusTotal, r.focusSessions);
  }

  /** A fresh install has no stored totals, so the first resume throws. */
  lemma FreshInstallResumeThrows(app: App, res: Resources, today: string)
    requires Inv(app, res)
    requires UPDATED_FOCUS_TIME !in app.store
    ensures Resume(app, res, today) == Err(NumberFormat)
  {
    assert GetFocusTime(app.store) == "";
  }

  /** Once a session's totals have been stored, resume no longer throws. */
  lemma ResumeAfterCompletionSucceeds(app: App, res: Resources, today: string, day: string, t: Int32, s: Int32)
    requires Inv(app, res)
    requires app.store == StoreFocusStats(app.store, day, t, s)
    ensures Resume(app, res, today).Ok?
  {
  }

  /** Resume never lowers the in-memory minutes, and adopts stored totals
      from another day never. */
  lemma ResumeIgnoresOtherDay(app: App, res: Resources, day: string, today: string)
    requires Inv(app, res)
    requires Plain(day) && Plain(today) && day != today
    requires GetStoredDate(app.store) == GetDate(day)
    ensures var r := Resume(app, res, today);
            r.Ok? ==> r.value.focusTotal == app.focusTotal && r.value.focusSessions == app.focusSessions
  {
    StoredDateMatchesDay(app.store, day, today);
  }

  /** The in-memory totals are not keyed by day: with totals from an
      earlier day in memory and in the store, the statistics screen shows
      zeros today, yet the first completion today records and shows the
      carried totals plus 5 and 1, rather than 5 and 1 for today alone. */
  lemma CompletionCarriesTotalsAcrossDays(app: App, res: Resources, yesterday: string, today: string)
    requires Inv(app, res)
    requires Plain(yesterday) && Plain(today) && yesterday != today
    requires app.focusTotal + FOCUS_TIME <= MAX_INT && app.focusSessions + 1 <= MAX_INT
    requires GetStoredDate(app.store) == GetDate(yesterday)
    ensures Stats.OnCreateView(app.store, today) == Stats.StatsView("0", "0")
    ensures var r := OnClockChanged(app, res, today, res.timeEnd);
            Stats.OnCreateView(r.store, today) ==
              Stats.StatsView(IntToDecimal(app.focusTotal + FOCUS_TIME), IntToDecimal(app.focusSessions + 1))
  {
    Stats.StaleDayShowsZero(app.store, yesterday, today);
    CompletionReachesStats(app, res, today);
  }
}

=== FILE: plant_receiver.dfy ===
/** The broadcast receiver that records a completed session's totals in the
    preference store. */
module PlantReceiver {
  import opened Base
  import opened Text
  import opened AccessSharedPref

  const CUSTOM_BROADCAST := "com.final project.CUSTOM_BROADCAST"
  const UPDATE_FOCUS := "update_focus"
  const FOCUS_SESSIONS := "focus_sessions"

  /** An intent's extras: the only values this application puts there are
      `int`s. */
  type Bundle = map<string, Int32>

  /** An intent: its action and its extras bundle, either of which may be
      null. */
  datatype Intent = Intent(action: Option<string>, extras: Option<Bundle>)

  /** `Bundle.getInt(key)`: 0 for a missing key. */
  function GetInt(b: Bundle, key: string): (v: Int32)
    ensures key in b ==> v == b[key]
    ensures key !in b ==> v == 0
  {
    if key in b then b[key] else 0
  }

  /** True for the intents `onReceive` acts on. */
  function IsFocusUpdate(intent: Intent): (b: bool)
    ensures intent.action.None? || intent.extras.None? ==> !b
    ensures b ==> intent.action == Some(CUSTOM_BROADCAST)
    ensures b ==> UPDATE_FOCUS in intent.extras.value
  {
    && intent.action == Some(CUSTOM_BROADCAST)
    && intent.extras.Some?
    && UPDATE_FOCUS in intent.extras.value
  }

  /** `onReceive`: a focus-update broadcast overwrites the stored totals with
      the broadcast's values, whatever was stored before, and stamps them
      with today's date; any other intent leaves the store as it was. (A
      null action fails the `assert`, which Android runs with assertions
      disabled, and then fails the action test.) */
  function OnReceive(store: Store, today: string, intent: Intent): (r: Store)
    ensures !IsFocusUpdate(intent) ==> r == store
    ensures IsFocusUpdate(intent) ==>
              var b := intent.extras.value;
              && ParseInt(GetFocusTime(r)) == Some(b[UPDATE_FOCUS])
              && ParseInt(GetFocusSessions(r)) == Some(GetInt(b, FOCUS_SESSIONS))
              && GetStoredDate(r) == GetDate(today)
              && (Plain(today) ==> CompareDates(r, today))
              && (forall k :: k !in STAT_KEYS ==> RetrieveData(r, k) == RetrieveData(store, k))
  {
    if intent.action == Some(CUSTOM_BROADCAST) then
      match intent.extras
      case None => store
      case Some(extras) =>
        if UPDATE_FOCUS in extras then
          StoreFocusStats(store, today, extras[UPDATE_FOCUS], GetInt(extras, FOCUS_SESSIONS))
        else store
    else store
  }

  /** The result of a focus update depends only on the broadcast, not on
      the store it lands in (for the stat keys). */
  lemma ReceiveOverwrites(s1: Store, s2: Store, today: string, intent: Intent)
    requires IsFocusUpdate(intent)
    ensures var r1, r2 := OnReceive(s1, today, intent), OnReceive(s2, today, intent);
            forall k :: k in STAT_KEYS ==> RetrieveData(r1, k) == RetrieveData(r2, k)
  {
    var r1, r2 := OnReceive(s1, today, intent), OnReceive(s2, today, intent);
    assert GetStoredDate(r1) == GetStoredDate(r2);
    assert GetFocusTime(r1) == GetFocusTime(r2);
    assert GetFocusSessions(r1) == GetFocusSessions(r2);
  }

  /** Receiving the same broadcast twice is the same as receiving it once. */
  lemma OnReceiveIdempotent(store: Store, today: string, intent: Intent)
    ensures OnReceive(OnReceive(store, today, intent), today, intent) == OnReceive(store, today, intent)
  {
  }

  /** Delivery of one broadcast to each of `n` registered receivers. */
  function Deliver(store: Store, today: string, intent: Intent, n: nat): Store
    decreases n
  {
    if n == 0 then store else Deliver(OnReceive(store, today, intent), today, intent, n - 1)
  }

  /** However many receivers are registered, as long as there is one, the
      store ends as if a single receiver had handled the broadcast. */
  lemma {:induction false} DeliverToMany(store: Store, today: string, intent: Intent, n: nat)
    ensures n >= 1 ==> Deliver(store, today, intent, n) == OnReceive(store, today, intent)
    decreases n
  {
    if n > 1 {
      DeliverToMany(OnReceive(store, today, intent), today, intent, n - 1);
      OnReceiveIdempotent(store, today, intent);
    }
  }
}

=== FILE: quote_fragment.dfy ===
/** The quote screen: a process-wide request counter lets the first five
    views fetch a fresh quote; later views show the stored one. */
module QuoteFragment {
  import opened Base
  import opened AccessSharedPref

  const MAX_REQUESTS: Int32 := 5

  /** One object of the quote service's response array: its "q" and "a". */
  datatype QuoteObject = QuoteObject(q: string, a: string)

  /** The quote and author texts on screen. */
  datatype QuoteView = QuoteView(quoteText: string, authorText: string)

  /** What a view creation does: issue a network request, or show the stored
      quote at once. */
  datatype Load = Fetch | ShowStored(view: QuoteView)

  /** `setQuoteText`: the quote between double quotes, the author after a
      tilde; both are recoverable from the texts. */
  function SetQuoteText(quote: string, author: string): (v: QuoteView)
    ensures |v.quoteText| == |quote| + 2
    ensures v.quoteText[0] == '"' && v.quoteText[|v.quoteText| - 1] == '"'
    ensures v.quoteText[1..|v.quoteText| - 1] == quote
    ensures |v.authorText| == |author| + 1 && v.authorText[0] == '~' && v.authorText[1..] == author
  {
    QuoteView("\"" + quote + "\"", "~" + author)
  }

  /** `onCreateView`: the static counter goes up by one (as a Java `int`);
      a request is issued exactly when the new count is at most five, and
      otherwise the stored quote and author ("" when never stored) are
      shown. */
  function OnCreateView(requestCount: Int32, store: Store): (r: (Int32, Load))
    ensures r.0 == Add32(requestCount, 1)
    ensures r.1.Fetch? <==> r.0 <= MAX_REQUESTS
    ensures r.1.ShowStored? ==>
              r.1.view == SetQuoteText(RetrieveData(store, QUOTE), RetrieveData(store, AUTHOR))
  {
    var count := Add32(requestCount, 1);
    if count <= MAX_REQUESTS then (count, Fetch)
    else (count, ShowStored(SetQuoteText(RetrieveData(store, QUOTE), RetrieveData(store, AUTHOR))))
  }

  /** The response handler's loop: it walks the whole array and keeps the
      last object it saw, or none for an empty array. */
  method SelectResponseObject(arr: seq<QuoteObject>) returns (obj: Option<QuoteObject>)
    ensures |arr| == 0 ==> obj == None
    ensures |arr| > 0 ==> obj == Some(arr[|arr| - 1])
  {
    obj := None;
    var i := 0;
    while i < |arr|
      invariant 0 <= i <= |arr|
      invariant i == 0 ==> obj == None
      invariant i > 0 ==> obj == Some(arr[i - 1])
    {
      obj := Some(arr[i]);
      i := i + 1;
    }
  }

  /** The response handler: an empty array changes nothing; otherwise the
      last object's quote and author are stored and shown, so what is shown
      is exactly what a later over-budget view will read back. */
  method OnResponse(store: Store, arr: seq<QuoteObject>) returns (r: Store, shown: Option<QuoteView>)
    ensures |arr| == 0 ==> r == store && shown == None
    ensures |arr| > 0 ==>
              && RetrieveData(r, QUOTE) == arr[|arr| - 1].q
              && RetrieveData(r, AUTHOR) == arr[|arr| - 1].a
              && shown == Some(SetQuoteText(RetrieveData(r, QUOTE), RetrieveData(r, AUTHOR)))
    ensures forall k :: k != QUOTE && k != AUTHOR ==> RetrieveData(r, k) == RetrieveData(store, k)
  {
    var obj := SelectResponseObject(arr);
    match obj {
      case None =>
        r, shown := store, None;
      case Some(o) =>
        r := StoreQuote(store, o.q, o.a);
        shown := Some(SetQuoteText(o.q, o.a));
    }
  }

  /** `k` view creations in a row: the final counter and how many of them
      issued a request. */
  function Views(requestCount: Int32, store: Store, k: nat): (Int32, nat)
    decreases k
  {
    if k == 0 then (requestCount, 0)
    else
      var (count, load) := OnCreateView(requestCount, store);
      var (last, fetches) := Views(count, store, k - 1);
      (last, fetches + if load.Fetch? then 1 else 0)
  }

  /** From process start the counter counts the views, and the first five
      of them, no more, issue a request (for any number of views that the
      `int` counter can count without wrapping). */
  lemma {:induction false} RequestBudget(start: Int32, store: Store, k: nat)
    requires start + k <= MAX_INT
    ensures Views(start, store, k).0 == start + k
    ensures Views(start, store, k).1
         == if start >= MAX_REQUESTS then 0 else Min(k, MAX_REQUESTS - start)
    decreases k
  {
    if k > 0 {
      RequestBudget(start + 1, store, k - 1);
    }
  }

  /** The per-process budget: of `k` views after launch, `min(k, 5)` fetch. */
  lemma RequestBudgetFromLaunch(store: Store, k: nat)
    requires k <= MAX_INT
    ensures Views(0, store, k) == (k, Min(k, MAX_REQUESTS))
  {
    RequestBudget(0, store, k);
  }
}

=== FILE: stats_fragment.dfy ===
/** The statistics screen: today's stored totals, or zeros on any other day. */
module StatsFragment {
  import opened Base
  import opened Text
  import opened AccessSharedPref

  /** The two texts the screen shows: minutes focused and sessions. */
  datatype StatsView = StatsView(focusTime: string, focusSessions: string)

  /** `onCreateView`: the stored strings verbatim when the stored date is
      today, "0" and "0" otherwise. The fragment only reads the store. */
  function OnCreateView(store: Store, today: string): (v: StatsView)
    ensures CompareDates(store, today) ==> v == StatsView(GetFocusTime(store), GetFocusSessions(store))
    ensures !CompareDates(store, today) ==> v == StatsView("0", "0")
  {
    if CompareDates(store, today) then StatsView(GetFocusTime(store), GetFocusSessions(store))
    else StatsView("0", "0")
  }

  /** The view depends on nothing but the three stat keys. */
  lemma ViewDependsOnlyOnStats(s1: Store, s2: Store, today: string)
    requires forall k :: k in STAT_KEYS ==> RetrieveData(s1, k) == RetrieveData(s2, k)
    ensures OnCreateView(s1, today) == OnCreateView(s2, today)
  {
    assert GetStoredDate(s1) == GetStoredDate(s2);
    assert GetFocusTime(s1) == GetFocusTime(s2);
    assert GetFocusSessions(s1) == GetFocusSessions(s2);
  }

  /** Totals stamped on another day show as zeros, whatever they are. */
  lemma StaleDayShowsZero(store: Store, day: string, today: string)
    requires Plain(day) && Plain(today) && day != today
    requires GetStoredDate(store) == GetDate(day)
    ensures OnCreateView(store, today) == StatsView("0", "0")
  {
    StoredDateMatchesDay(store, day, today);
  }

  /** Totals written today show as their decimal texts. */
  lemma StoredTodayShowsTotals(store: Store, today: string, total: Int32, sessions: Int32)
    requires Plain(today)
    ensures OnCreateView(StoreFocusStats(store, today, total, sessions), today)
         == StatsView(IntToDecimal(total), IntToDecimal(sessions))
  {
  }
}

=== FILE: text.dfy ===
/** The string operations the application relies on, for ASCII text:
    decimal rendering (`String.valueOf(int)`, the `%d` and `%02d`
    conversions), `Integer.parseInt`, single-character `replace`, Gson's
    quoting of a string, and `toUpperCase` of one character. */
module Text {
  import opened Base

  predicate IsDigit(c: char) {
    '0' <= c <= '9'
  }

  predicate AllDigits(s: string) {
    forall i :: 0 <= i < |s| ==> IsDigit(s[i])
  }

  function DigitChar(d: nat): (c: char)
    requires d < 10
    ensures IsDigit(c)
  {
    ('0' as int + d) as char
  }

  function DigitValue(c: char): (d: nat)
    requires IsDigit(c)
    ensures d < 10 && DigitChar(d) == c
  {
    c as int - '0' as int
  }

  /** Decimal rendering of a natural number, without leading zeros. */
  function NatToDecimal(n: nat): (s: string)
    ensures |s| >= 1
    ensures AllDigits(s)
    decreases n
  {
    if n < 10 then [DigitChar(n)] else NatToDecimal(n / 10) + [DigitChar(n % 10)]
  }

  /** `String.valueOf(int)`, and `%d` in an ASCII locale. */
  function IntToDecimal(i: int): (s: string)
    ensures |s| >= 1
    ensures i >= 0 ==> AllDigits(s)
    ensures i < 0 ==> s[0] == '-' && AllDigits(s[1..])
  {
    if i < 0 then ['-'] + NatToDecimal(-i) else NatToDecimal(i)
  }

  /** The value of a string of decimal digits, most significant first. */
  function DigitsValue(s: string): nat
    requires AllDigits(s)
  {
    if |s| == 0 then 0 else 10 * DigitsValue(s[..|s| - 1]) + DigitValue(s[|s| - 1])
  }

  /** Reading back a rendered number gives the number. */
  lemma {:induction false} DigitsValueOfDecimal(n: nat)
    ensures DigitsValue(NatToDecimal(n)) == n
    decreases n
  {
    if n >= 10 {
      var s := NatToDecimal(n);
      assert s[..|s| - 1] == NatToDecimal(n / 10);
      DigitsValueOfDecimal(n / 10);
    }
  }

  /** Distinct numbers have distinct renderings. */
  lemma NatToDecimalInjective(a: nat, b: nat)
    requires NatToDecimal(a) == NatToDecimal(b)
    ensures a == b
  {
    DigitsValueOfDecimal(a);
    DigitsValueOfDecimal(b);
  }

  /** `Integer.parseInt(s)`: an optional sign followed by at least one
      digit, whose value fits in an `int`; anything else throws
      NumberFormatException, modelled as `None`. */
  function ParseInt(s: string): (r: Option<Int32>)
    ensures |s| == 0 ==> r == None
    ensures r.Some? ==> s[0] == '-' || s[0] == '+' || IsDigit(s[0])
    ensures r.Some? && r.value < 0 ==> s[0] == '-'
    ensures |s| >= 1 && AllDigits(s) && DigitsValue(s) <= MAX_INT ==> r == Some(DigitsValue(s))
    ensures |s| >= 1 && AllDigits(s) && DigitsValue(s) > MAX_INT ==> r == None
    ensures r.Some? ==> AllDigits(s[1..]) && (|s| >= 2 || IsDigit(s[0]))
    ensures r.Some? && s[0] == '-' ==> r.value as int == -(DigitsValue(s[1..]) as int)
    ensures |s| >= 2 && s[0] == '-' && AllDigits(s[1..]) && DigitsValue(s[1..]) <= -MIN_INT ==>
              r == Some(-(DigitsValue(s[1..]) as int))
    ensures |s| >= 2 && s[0] == '+' && AllDigits(s[1..]) ==>
              r == if DigitsValue(s[1..]) <= MAX_INT then Some(DigitsValue(s[1..]) as Int32) else None
  {
    if |s| == 0 then None
    else
      var body := if s[0] == '-' || s[0] == '+' then s[1..] else s;
      if |body| == 0 || !AllDigits(body) then None
      else
        var v: int := if s[0] == '-' then -(DigitsValue(body) as int) else DigitsValue(body);
        if MIN_INT <= v <= MAX_INT then Some(v) else None
  }

  /** `Integer.parseInt(String.valueOf(i)) == i` for every `int`. */
  lemma ParseIntOfDecimal(i: Int32)
    ensures ParseInt(IntToDecimal(i)) == Some(i)
  {
    var s := IntToDecimal(i);
    if i < 0 {
      var n: nat := -(i as int);
      assert s[1..] == NatToDecimal(n);
      DigitsValueOfDecimal(n);
    } else {
      assert IsDigit(s[0]);
      DigitsValueOfDecimal(i);
    }
  }

  /** `%02d`: at least two digits, padded with a leading zero. */
  function Pad2(n: nat): string {
    if n < 10 then ['0'] + NatToDecimal(n) else NatToDecimal(n)
  }

  lemma Pad2TwoDigits(n: nat)
    requires n < 100
    ensures Pad2(n) == [DigitChar(n / 10), DigitChar(n % 10)]
  {
    if n >= 10 {
      assert NatToDecimal(n / 10) == [DigitChar(n / 10)];
    }
  }

  /** `String.format("%d:%02d", minutes, seconds)`. */
  function ClockFormat(minutes: nat, seconds: nat): string {
    NatToDecimal(minutes) + [':'] + Pad2(seconds)
  }

  /** The clock rendering loses nothing: two renderings with seconds below
      100 are equal only when both parts are equal. */
  lemma ClockFormatInjective(m1: nat, s1: nat, m2: nat, s2: nat)
    requires s1 < 100 && s2 < 100
    requires ClockFormat(m1, s1) == ClockFormat(m2, s2)
    ensures m1 == m2 && s1 == s2
  {
    var x := ClockFormat(m1, s1);
    var a1, a2 := NatToDecimal(m1), NatToDecimal(m2);
    Pad2TwoDigits(s1);
    Pad2TwoDigits(s2);
    assert |a1| == |a2|;
    assert a1 == x[..|a1|] == a2;
    NatToDecimalInjective(m1, m2);
    assert x[|a1| + 1] == DigitChar(s1 / 10) == DigitChar(s2 / 10);
    assert x[|a1| + 2] == DigitChar(s1 % 10) == DigitChar(s2 % 10);
    assert DigitValue(DigitChar(s1 / 10)) == s1 / 10;
    assert DigitValue(DigitChar(s2 / 10)) == s2 / 10;
    assert DigitValue(DigitChar(s1 % 10)) == s1 % 10;
    assert DigitValue(DigitChar(s2 % 10)) == s2 % 10;
  }

  /** `s.replace(from, to)` for single-character operands (also what
      `replaceAll` does with a one-character pattern that is no regex
      metacharacter). */
  function ReplaceChar(s: string, from: char, to: char): (r: string)
    ensures |r| == |s|
    ensures forall i :: 0 <= i < |s| ==> r[i] == (if s[i] == from then to else s[i])
  {
    if s == [] then [] else [if s[0] == from then to else s[0]] + ReplaceChar(s[1..], from, to)
  }

  /** `s.replace(c, "")`: every occurrence of `c` removed. */
  function RemoveChar(s: string, c: char): (r: string)
    ensures c !in r
    ensures forall x :: x in r ==> x in s
    ensures c !in s ==> r == s
    ensures |r| <= |s|
  {
    if s == [] then [] else (if s[0] == c then [] else [s[0]]) + RemoveChar(s[1..], c)
  }

  lemma {:induction false} RemoveCharAppend(a: string, b: string, c: char)
    ensures RemoveChar(a + b, c) == RemoveChar(a, c) + RemoveChar(b, c)
    decreases |a|
  {
    if a != [] {
      assert (a + b)[0] == a[0];
      assert (a + b)[1..] == a[1..] + b;
      var head := if a[0] == c then [] else [a[0]];
      assert RemoveChar(a + b, c) == head + RemoveChar(a[1..] + b, c);
      assert RemoveChar(a, c) == head + RemoveChar(a[1..], c);
      RemoveCharAppend(a[1..], b, c);
    } else {
      assert a + b == b;
    }
  }

  /** The body of a JSON string literal as Gson writes it: a double quote
      or a backslash is preceded by a backslash. */
  function JsonEscape(s: string): (r: string)
    ensures '"' !in s && '\\' !in s ==> r == s
    ensures |r| >= |s|
  {
    if s == [] then []
    else (if s[0] == '"' || s[0] == '\\' then ['\\', s[0]] else [s[0]]) + JsonEscape(s[1..])
  }

  /** `gson.toJson(s)` for a string `s`. */
  function JsonString(s: string): (r: string)
    ensures |r| >= 2 && r[0] == '"' && r[|r| - 1] == '"'
  {
    ['"'] + JsonEscape(s) + ['"']
  }

  /** Text that Gson writes verbatim between the quotes. */
  predicate Plain(s: string) {
    '"' !in s && '\\' !in s
  }

  /** Stripping the quotes and backslashes from the JSON form of plain text
      gives the text back. */
  lemma StripJsonString(s: string)
    ensures Plain(s) ==> RemoveChar(RemoveChar(JsonString(s), '\\'), '"') == s
    ensures Plain(s) ==> RemoveChar(JsonString(s), '"') == s
  {
    if Plain(s) {
      var j := JsonString(s);
      assert j == ['"'] + s + ['"'];
      assert RemoveChar(j, '\\') == j;
      RemoveCharAppend(['"'] + s, ['"'], '"');
      RemoveCharAppend(['"'], s, '"');
    }
  }

  /** `Character.toUpperCase` restricted to ASCII: a–z become A–Z. */
  function ToUpperAscii(c: char): (u: char)
    ensures 'a' <= c <= 'z' ==> 'A' <= u <= 'Z' && u as int == c as int - 32
    ensures !('a' <= c <= 'z') ==> u == c
  {
    if 'a' <= c <= 'z' then (c as int - 32) as char else c
  }
}
